=== FILE: README.md ===
# Spot the Fake — a Dafny model of the dashboard's decision logic

"Spot the Fake" is a browser dashboard that presents a simulated fraud and
phishing detector. This project models the logic behind it that can be
stated exactly. The rendering around that logic is not modelled.

- **Real-time detection service** (`real_time_detection.dfy`, module `RealTimeDetection`).
  The service state is a monitoring flag and its interval handle, a
  most-recent-first alert log and a list of subscriber callbacks. The
  transitions are start/stop, subscribe/unsubscribe, the monitoring tick,
  manual URL analysis, the recent-alerts query and the statistics. The
  fraud-detection analysis is an input of type `Result<Analysis>`; a
  `Failure` stands for a thrown error.
- **Content scanner** (`scanner.dfy`, module `Scanner`). This covers keyword
  matching on the lower-cased target, the risk-score range, threshold
  classification, detection reasons, the analysis-detail scores and the
  form's non-empty guard.
- **Threat database** (`threat_database.dfy`, module `ThreatDatabase`). This
  covers the fixed five-entry table, the search/type filter, and the
  risk-score and status colour selectors.
- **Extension download** (`extension_download.dfy`, module `ExtensionDownload`).
  This covers the eight-file table and the text package that frames the
  files under a header.
- **Extension scripts** (`extension_scripts.dfy`, module `ExtensionScripts`).
  This covers the background worker's suspicious-domain check with its
  blocked counter, and the content script's two-keyword banner rule.
- Shared helpers:
  - `Wrappers`: `Option` and `Result`.
  - `Seqs`: JavaScript `indexOf`, removal of the first occurrence, prefix and subsequence.
  - `AsciiText`: ASCII `toLowerCase`, `includes`, and `trim` with the ECMAScript white-space set.
  - `Randomness`: `Math.floor(Math.random() * n) + b`, with the random value as an input in [0, 1).

Each `Math.random()` call becomes a parameter of type `UnitInterval`, a real
in [0, 1). The product `u * n` is taken in exact real arithmetic, not in
IEEE-754 doubles, so at a bucket boundary the integer can differ from the one
a JavaScript engine computes. Alert
ids, timestamps and timer handles are also parameters. A subscriber callback
is identified by a number, which plays the role of JavaScript's reference
identity.

## Model

| member | source | states |
|---|---|---|
| RealTimeDetection.StartMonitoring | src/services/realTimeDetection.ts:20-30 | while monitoring, nothing changes; otherwise the flag becomes true and the given interval handle is held; log and subscribers are untouched |
| RealTimeDetection.StopMonitoring | src/services/realTimeDetection.ts:32-39 | whatever the prior state, the flag ends false and no interval handle is held; log and subscribers are untouched |
| RealTimeDetection.Subscribe | src/services/realTimeDetection.ts:41-43 | the callback is appended at the end, even if already present; nothing else changes |
| RealTimeDetection.Unsubscribe | src/services/realTimeDetection.ts:44-50 | an absent callback leaves the state equal; otherwise exactly its first occurrence is removed, the rest keeps its order, and the multiset loses one copy |
| RealTimeDetection.SubscribeThenUnsubscribe | src/services/realTimeDetection.ts:41-50 | unsubscribing a callback right after subscribing it (when it was new) gives back the original state |
| RealTimeDetection.Notify | src/services/realTimeDetection.ts:97-105 | every subscriber of the list as it stood when notification began, in list order and with multiplicity, receives the alert |
| RealTimeDetection.MakeAlert | src/services/realTimeDetection.ts:73-80 | an alert carries the analysed url, score and threat type, is blocked exactly when the score is above 70, and has no user action |
| RealTimeDetection.SimulateDetection | src/services/realTimeDetection.ts:53-95 | with a failed analysis or a score of at most 60 nothing changes and nobody is notified; otherwise the new alert is first and is the one built from the given id, timestamp and analysis for the host that `pick` selects from the fixed list (blocked exactly above 70, no user action), the log length is min(old + 1, 50), the rest is a prefix of the old log, and every subscriber is notified |
| RealTimeDetection.Tick | src/services/realTimeDetection.ts:27-29 | a tick runs the simulated detection only while a handle is held, taken as one step at the moment its analysis returns |
| RealTimeDetection.AnalyzeUrl | src/services/realTimeDetection.ts:125-146 | a failed analysis is rethrown with the state untouched; a successful one prepends exactly one alert with no cap (the old log is the tail), notifies every subscriber and returns the alert, which carries the url, the analysed score and threat type, is blocked exactly above 70 and has no user action |
| RealTimeDetection.GetRecentAlerts | src/services/realTimeDetection.ts:107-109 | the result is a prefix of the log, of length min(limit, size) for limit >= 0, size + limit (at least 0) for a negative limit, and min(10, size) by default |
| RealTimeDetection.CountBlocked | src/services/realTimeDetection.ts:119 | the blocked count is at most the log size and is zero exactly when no alert is blocked |
| RealTimeDetection.CountAction | src/services/realTimeDetection.ts:120-121 | a user-action count is at most the log size and is zero exactly when no alert has that action |
| RealTimeDetection.AllowedAndReportedDisjoint | src/services/realTimeDetection.ts:111-123 | allowed + reported never exceeds the log size, because an alert has one user action at most |
| RealTimeDetection.GetThreatStats | src/services/realTimeDetection.ts:111-123 | total equals the log size, blocked <= total, allowed + reported <= total |
| RealTimeDetection.AnalyzeUrlStats | src/services/realTimeDetection.ts:129-139 | a manual analysis raises the total by one, and raises blocked by one exactly when the score is above 70 |
| RealTimeDetection.EditAlert | src/services/realTimeDetection.ts:4-12 | a write through a handed-out alert reference changes only that logged alert's field; the log length, the other alerts, the subscribers and the monitoring state stay the same, and a write to an alert no longer logged changes nothing |
| RealTimeDetection.SetUserActionCounts | src/services/realTimeDetection.ts:120-121 | setting one alert's user action lowers a count by one when the old action was that one and raises it by one when the new action is |
| RealTimeDetection.SetBlockedCounts | src/services/realTimeDetection.ts:119 | setting one alert's blocked flag moves it into or out of the blocked count |
| RealTimeDetection.ApplyPreservesValid | src/services/realTimeDetection.ts:20-46 | every transition, including writes through alert references, keeps the flag set exactly while a handle is held |
| RealTimeDetection.RunPreservesValid | src/services/realTimeDetection.ts:20-46 | any sequence of transitions keeps that invariant |
| RealTimeDetection.OwnEventsKeepAlertsAsBuilt | src/services/realTimeDetection.ts:73-93 | the service's own operations log only alerts blocked exactly above 70 with no user action |
| RealTimeDetection.RunKeepsAlertsAsBuilt | src/services/realTimeDetection.ts:73-139 | any sequence of the service's own operations keeps every logged alert as the service built it |
| RealTimeDetection.ReachableStats | src/services/realTimeDetection.ts:111-123 | in every reachable state the flag matches the handle, blocked is at most the total and allowed plus reported is at most the total; when nothing writes through an alert reference, allowed and reported are 0 and blocked alerts are exactly those scoring above 70 |
| AsciiText.TrimCutsOnlyWhitespace | src/components/Scanner.tsx:62 | `trim` cuts only white space from both ends, the remaining part neither starts nor ends with white space, and it is empty exactly when the input is blank |
| Randomness.Draw | src/components/Scanner.tsx:27-29 | `Math.floor(u * span) + base` lies in [base, base + span), and equals base exactly when u < 1/span |
| Scanner.CheckSuspicious | src/components/Scanner.tsx:18-25 | a target is suspicious exactly when its lower-cased form contains one of the 14 patterns |
| Scanner.RiskScore | src/components/Scanner.tsx:27-29 | the score is in [70, 99] for a suspicious target and in [10, 49] otherwise; a suspicious score is 70 exactly when the draw is below 1/30 |
| Scanner.ClassificationPairing | src/components/Scanner.tsx:44-45 | High Risk goes with Phishing, Medium Risk with Suspicious, Low Risk with Clean |
| Scanner.LabelsIdentify | src/components/Scanner.tsx:44-45 | the classification and threat-type strings the page shows are pairwise different, so each string names exactly one value |
| Scanner.SimulateScan | src/components/Scanner.tsx:11-58 | the score range follows suspicion; classification is by the thresholds 70 and 40 and pairs with the threat type; reasons are empty when the target is not suspicious, otherwise the three fixed reasons plus the malware reason exactly when the score is above 85; detail scores lie in [80,99], [60,89], [75,99] and [65,99] |
| Scanner.NonSuspiciousNeverHighRisk | src/components/Scanner.tsx:27-45 | a target that is not suspicious is never High Risk or Phishing |
| Scanner.SuspiciousHighRiskUnlessSeventy | src/components/Scanner.tsx:27-44 | a suspicious target is High Risk unless its score is 70; it is Medium Risk exactly when the draw is below 1/30, and never Low Risk |
| Scanner.HandleScan | src/components/Scanner.tsx:60-65 | the form starts a scan exactly when the input has a non-white-space character, and scans the untrimmed input |
| ThreatDatabase.FilterThreats | src/components/ThreatDatabase.tsx:71-76 | the result is an order-preserving subsequence of the table holding exactly the threats whose url or type contains the search term and whose type passes the filter |
| ThreatDatabase.FilterThreatsCounts | src/components/ThreatDatabase.tsx:71-76 | each kept threat appears in the result as many times as in the table, each dropped one not at all |
| ThreatDatabase.DescriptionNotSearched | src/components/ThreatDatabase.tsx:72-73 | changing a threat's description never changes whether it is kept |
| ThreatDatabase.EmptySearchShowsAll | src/components/ThreatDatabase.tsx:8-76 | an empty search with the filter "all" returns all five threats, in order |
| ThreatDatabase.SearchIgnoresCase | src/components/ThreatDatabase.tsx:72-73 | two search terms that differ only in letter case give the same result |
| ThreatDatabase.FilterIgnoresCase | src/components/ThreatDatabase.tsx:74 | two filter values that differ only in letter case give the same result, as long as both or neither are exactly "all" |
| ThreatDatabase.AllIsCaseSensitive | src/components/ThreatDatabase.tsx:74 | "ALL" lower-cases to "all" yet shows no threat, because "all" is compared exactly |
| ThreatDatabase.BankingTrojanOnlyUnderAll | src/components/ThreatDatabase.tsx:58-127 | no selectable type option other than "all" shows the Banking Trojan entry, whatever the search term |
| ThreatDatabase.RiskColor | src/components/ThreatDatabase.tsx:87-91 | red exactly from 80, orange exactly in [60, 80), yellow exactly below 60 |
| ThreatDatabase.RiskColorMonotone | src/components/ThreatDatabase.tsx:87-91 | a higher score never gets a milder colour |
| ThreatDatabase.StatusColor | src/components/ThreatDatabase.tsx:78-85 | Active is red, Monitoring yellow, and every other status gray |
| ThreatDatabase.UnknownStatusLooksBlocked | src/components/ThreatDatabase.tsx:78-85 | an unknown status gets the same classes as "Blocked" |
| ExtensionDownload.Files | src/utils/extensionDownload.ts:495-504 | exactly eight entries, named manifest.json … README.md in insertion order, each holding its file's text |
| ExtensionDownload.Frame | src/utils/extensionDownload.ts:513-516 | a file contributes the framing characters plus its name and content, and nothing more |
| ExtensionDownload.CreateExtensionPackage | src/utils/extensionDownload.ts:507-520 | the package starts with the two-paragraph header, is the header followed by the frames in order, and its length is the header length plus Σ (framing + name + content) |
| ExtensionDownload.FramesAppend | src/utils/extensionDownload.ts:512-517 | the frames of two concatenated file lists are the concatenation of their frames |
| ExtensionDownload.FramesLength | src/utils/extensionDownload.ts:509-517 | the frames are exactly as long as the framing, names and contents together |
| ExtensionDownload.FrameLocation | src/utils/extensionDownload.ts:512-517 | file i's exact frame sits in the package right after the header and the frames of files 0..i-1 |
| ExtensionDownload.DownloadChromeExtension | src/utils/extensionDownload.ts:522-535 | the download is a text/plain document named spot-the-fake-extension-package.txt holding the package of the eight files, and the call always returns true |
| ExtensionScripts.CheckDomain | src/utils/extensionDownload.ts:192-205 | the domain check scans the patterns in order and reports suspicious exactly when the lower-cased hostname contains a pattern, or the pattern with only its first '-' removed |
| ExtensionScripts.OnBeforeNavigate | src/utils/extensionDownload.ts:185-215 | the blocked count goes up by one exactly for a main-frame navigation to a parsable, suspicious host, and otherwise stays the same |
| ExtensionScripts.BlockedCountTally | src/utils/extensionDownload.ts:185-215 | after any sequence of navigations, the count has grown by exactly the number of blocked ones |
| ExtensionScripts.FoundKeywords | src/utils/extensionDownload.ts:260-262 | the found list holds exactly the listed keywords the text contains |
| ExtensionScripts.FoundKeywordsCounts | src/utils/extensionDownload.ts:260-262 | each occurring keyword is found as many times as it is listed, the others not at all |
| ExtensionScripts.TwoFound | src/utils/extensionDownload.ts:260-264 | at least two keywords are found exactly when two different list positions match |
| ExtensionScripts.PageKeywordsDistinct | src/utils/extensionDownload.ts:253-257 | the eight banner keywords are pairwise different |
| ExtensionScripts.BannerIffTwoKeywords | src/utils/extensionDownload.ts:252-267 | the banner shows exactly when at least two different listed keywords occur in the lower-cased page text |

## Notes on the code's behaviour

- The type filter compares `filterType === 'all'` with its exact case, but
  compares types after lower-casing. So a filter value that differs from
  "all" only in case, such as "ALL", keeps no threat. Changing the letter
  case of the filter therefore does not always leave the result unchanged.
  `ThreatDatabase.FilterIgnoresCase` proves the invariance that does hold,
  and `ThreatDatabase.AllIsCaseSensitive` shows the exception. The selector
  only offers lower-case values, so the user interface never reaches this
  case.
- The simulated monitoring path caps the alert log at 50 entries. Manual
  analysis prepends with no cap. A log grown past 50 by manual analysis is
  cut back to 50 at the next simulated alert.

## Left out

- Rendering, JSX, Tailwind classes other than the two colour selectors, and page routing: these are user-interface composition.
- `setTimeout`/`setInterval` delays and the 15-second period: the tick is the explicit `Tick` transition, not time.
- `Math.random`, `Date`, ISO timestamps and alert-id formatting: these are parameters.
- The URL the monitoring tick hands to the analysis ("https://" + the picked host) is not modelled, because the analysis result is an input. The host stored in the alert is modelled.
- The fraud-detection analysis and the web scraper: `src/services/aiModels` and `src/services/webScraper` are not part of this model. Their result is an input.
- RealTimeDetection.Tick: a tick is treated as happening all at once when its analysis returns. In the source the interval fires, then waits for the analysis, and `stopMonitoring` does not cancel a tick already waiting, so such a tick still logs its alert and notifies subscribers after monitoring has stopped. The model never logs after a stop; moving the stop (and any start or stop after it) to just after that late completion gives the same states and the same notifications, since start and stop touch only the flag and the handle.
- Subscriber exceptions and `console` logging: notification is "every subscriber receives the alert".
- RealTimeDetection.Notify: the subscriber list is treated as unchanged during notification. `forEach` walks the live array, so a callback that subscribes or unsubscribes while it is being notified changes who receives the alert; that re-entrancy is not modelled. A subscriber's write to the alert during notification is seen by later subscribers and by the alert `analyzeUrlInRealTime` returns; the model delivers and returns the alert as built, and the write is an `AlertEdited` event after the step.
- RealTimeDetection.EditAlert: only writes to `userAction` and `blocked` are modelled, because writes to the other fields of a logged alert change no statistic.
- Randomness.Draw: IEEE-754 rounding of `Math.random() * n` is not modelled. The product is exact, so near a boundary the floor can differ by one from the engine's (for u = 0.03333333333333333 and n = 30 a double product rounds up to 1, the exact one does not).
- Scanner.RiskScore: inherits the exact product of `Randomness.Draw`; the 1/30 boundary for a score of 70 is the exact-arithmetic one.
- Scanner.SuspiciousHighRiskUnlessSeventy: the "draw below 1/30" condition is stated in exact arithmetic, for the same reason.
- The Blob, object URL, anchor click and `alert` of the download: these are I/O. The downloaded document is returned as data.
- `chrome.*` APIs: the tab redirect, storage, notifications, message handling and the popup script. Loading the stored blocked count is left out too, so the counter starts from a given value. In the source the load finishes in a later callback and overwrites the counter, so an increment from a navigation handled before that callback is lost; `ExtensionScripts.BlockedCountTally` holds only for navigations after the load. URL parsing is also left out: the hostname is an input, and `None` stands for an unparsable URL.
- The manifest's `JSON.stringify` text and the literal texts of the other seven files are opaque strings.
- `downloadFirefoxExtension` only raises an alert: it is I/O.
- Letter case: `toLowerCase` is modelled for ASCII letters only. Unicode case folding is not modelled.
- JavaScript numbers: risk scores and the `getRecentAlerts` limit are integers. Fractional, NaN and infinite values are not modelled.

=== FILE: extension_download.dfy ===
/**
 * The Chrome-extension download: the fixed table of extension files and the
 * text package that frames them one after another under a header. The file
 * contents are inputs (the manifest is the JSON rendering of a fixed object);
 * only their names, order and framing are modelled.
 */
module ExtensionDownload {

  datatype FileEntry = FileEntry(name: string, content: string)

  /** The texts of the eight extension files. */
  datatype Sources = Sources(
    manifest: string,
    popupHtml: string,
    popupJs: string,
    backgroundJs: string,
    contentJs: string,
    contentCss: string,
    blockedHtml: string,
    readme: string)

  const FileNames: seq<string> := [
    "manifest.json", "popup.html", "popup.js", "background.js",
    "content.js", "content.css", "blocked.html", "README.md"
  ]

  const Header := "# Spot the Fake Chrome Extension Package\n\n"
                  + "Extract these files to a folder and load as unpacked extension in Chrome.\n\n"

  /** The name the browser saves the package under. */
  const PackageFileName := "spot-the-fake-extension-package.txt"

  /** The opening line and fence before a file's content. */
  function OpenFrame(name: string): string { "\n## File: " + name + "\n" + "```\n" }

  /** The closing fence after a file's content. */
  const CloseFrame := "\n```\n"

  /** Characters a file adds beyond its name and content. */
  const FramingLength := |"\n## File: "| + |"\n"| + |"```\n"| + |CloseFrame|

  /** The `files` table, in insertion order. */
  function Files(src: Sources): (fs: seq<FileEntry>)
    ensures |fs| == |FileNames| == 8
    ensures forall i :: 0 <= i < |fs| ==> fs[i].name == FileNames[i]
    ensures fs[0].content == src.manifest && fs[1].content == src.popupHtml
    ensures fs[2].content == src.popupJs && fs[3].content == src.backgroundJs
    ensures fs[4].content == src.contentJs && fs[5].content == src.contentCss
    ensures fs[6].content == src.blockedHtml && fs[7].content == src.readme
  {
    [ FileEntry("manifest.json", src.manifest),
      FileEntry("popup.html", src.popupHtml),
      FileEntry("popup.js", src.popupJs),
      FileEntry("background.js", src.backgroundJs),
      FileEntry("content.js", src.contentJs),
      FileEntry("content.css", src.contentCss),
      FileEntry("blocked.html", src.blockedHtml),
      FileEntry("README.md", src.readme) ]
  }

  /** What one file contributes to the package. */
  function Frame(f: FileEntry): (t: string)
    ensures |t| == FramingLength + |f.name| + |f.content|
  {
    OpenFrame(f.name) + f.content + CloseFrame
  }

  /** The frames of `fs`, in order. */
  function Frames(fs: seq<FileEntry>): string
    decreases |fs|
  {
    if fs == [] then "" else Frames(fs[..|fs| - 1]) + Frame(fs[|fs| - 1])
  }

  /** Σ over `fs` of framing length + name length + content length. */
  function FramedSize(fs: seq<FileEntry>): nat
    decreases |fs|
  {
    if fs == [] then 0 else FramingLength + |fs[0].name| + |fs[0].content| + FramedSize(fs[1..])
  }

  /**
   * `createExtensionPackage`: the header, then each file's frame in table
   * order.
   */
  method CreateExtensionPackage(files: seq<FileEntry>) returns (pkg: string)
    ensures |pkg| == |Header| + FramedSize(files)
    ensures pkg[..|Header|] == Header
    ensures pkg == Header + Frames(files)
  {
    pkg := Header;
    var i := 0;
    while i < |files|
      invariant 0 <= i <= |files|
      invariant pkg == Header + Frames(files[..i])
    {
      assert files[..i + 1][..i] == files[..i];
      pkg := pkg + OpenFrame(files[i].name);
      pkg := pkg + files[i].content;
      pkg := pkg + CloseFrame;
      i := i + 1;
    }
    assert files[..i] == files;
    FramesLength(files);
  }

  /** Concatenating file lists concatenates their frames. */
  lemma {:induction false} FramesAppend(a: seq<FileEntry>, b: seq<FileEntry>)
    ensures Frames(a + b) == Frames(a) + Frames(b)
    decreases |b|
  {
    if b == [] {
      assert a + b == a;
    } else {
      var b' := b[..|b| - 1];
      var last := b[|b| - 1];
      assert (a + b)[..|a + b| - 1] == a + b';
      assert (a + b)[|a + b| - 1] == last;
      FramesAppend(a, b');
      calc {
        Frames(a + b);
        Frames(a + b') + Frame(last);
        (Frames(a) + Frames(b')) + Frame(last);
        Frames(a) + (Frames(b') + Frame(last));
        Frames(a) + Frames(b);
      }
    }
  }

  lemma {:induction false} FramedSizeAppend(a: seq<FileEntry>, b: seq<FileEntry>)
    ensures FramedSize(a + b) == FramedSize(a) + FramedSize(b)
    decreases |a|
  {
    if a == [] {
      assert a + b == b;
    } else {
      assert (a + b)[1..] == a[1..] + b;
      FramedSizeAppend(a[1..], b);
    }
  }

  /** The frames are exactly as long as the framing, names and contents together. */
  lemma {:induction false} FramesLength(fs: seq<FileEntry>)
    ensures |Frames(fs)| == FramedSize(fs)
    decreases |fs|
  {
    if fs != [] {
      var init := fs[..|fs| - 1];
      FramesLength(init);
      FramedSizeAppend(init, [fs[|fs| - 1]]);
      assert init + [fs[|fs| - 1]] == fs;
    }
  }

  /**
   * Entries appear in insertion order: file `i`'s frame starts right after
   * the header and the frames of the files before it.
   */
  lemma FrameLocation(fs: seq<FileEntry>, i: nat)
    requires i < |fs|
    ensures var pkg := Header + Frames(fs);
      var start := |Header| + FramedSize(fs[..i]);
      && start + |Frame(fs[i])| <= |pkg|
      && pkg[start..start + |Frame(fs[i])|] == Frame(fs[i])
  {
    var before := fs[..i];
    var after := fs[i + 1..];
    var f := Frame(fs[i]);
    assert fs == before + [fs[i]] + after;
    FramesAppend(before + [fs[i]], after);
    FramesAppend(before, [fs[i]]);
    assert Frames([fs[i]]) == f by {
      assert [fs[i]][..0] == [];
    }
    FramesLength(before);
    var z := Frames(after);
    calc {
      Frames(fs);
      Frames(before + [fs[i]] + after);
      Frames(before + [fs[i]]) + z;
      Frames(before) + f + z;
    }
    MiddleSlice(Header, Frames(before), f, z);
  }

  lemma MiddleSlice(h: string, x: string, y: string, z: string)
    ensures h + (x + y + z) == (h + x) + y + z
    ensures (h + (x + y + z))[|h| + |x|..|h| + |x| + |y|] == y
  {
  }

  /** The downloaded document and the value `downloadChromeExtension` returns. */
  datatype Download = Download(fileName: string, mimeType: string, content: string, result: bool)

  /** `downloadChromeExtension`: packages the eight files and always reports success. */
  method DownloadChromeExtension(src: Sources) returns (d: Download)
    ensures d.result
    ensures d.fileName == PackageFileName && d.mimeType == "text/plain"
    ensures d.content == Header + Frames(Files(src))
  {
    var pkg := CreateExtensionPackage(Files(src));
    d := Download(PackageFileName, "text/plain", pkg, true);
  }
}

=== FILE: extension_scripts.dfy ===
/**
 * The two matching rules embedded in the extension's scripts: the background
 * worker's suspicious-domain check with its blocked-site counter, and the
 * content script's "two or more keywords" warning-banner rule. Hostname
 * parsing, tab redirection, storage and notifications are not modelled.
 */
module ExtensionScripts {
  import opened Wrappers
  import opened AsciiText
  import Seqs

  /** The background worker's domain patterns. */
  const DomainPatterns: seq<string> := [
    "paypal-secure", "amazon-deals", "microsoft-update", "apple-id",
    "google-security", "facebook-login", "instagram-verify",
    "crypto-wallet", "bank-secure", "netflix-account"
  ]

  /** `pattern.replace('-', '')`: only the first hyphen goes. */
  function WithoutFirstHyphen(pattern: string): string
  {
    Seqs.RemoveFirst(pattern, '-')
  }

  /**
   * `checkUrl`'s test on the lower-cased hostname: it contains some pattern,
   * or that pattern with its first hyphen removed.
   */
  predicate IsSuspiciousDomain(hostname: string)
  {
    exists i :: 0 <= i < |DomainPatterns| && PatternMatches(ToLower(hostname), DomainPatterns[i])
  }

  /** `domain.includes(pattern) || domain.includes(pattern.replace('-', ''))` */
  predicate PatternMatches(domain: string, pattern: string)
  {
    Contains(domain, pattern) || Contains(domain, WithoutFirstHyphen(pattern))
  }

  /** `suspiciousPatterns.some(...)` in `checkUrl`, scanning the patterns in order. */
  method CheckDomain(hostname: string) returns (suspicious: bool)
    ensures suspicious <==> IsSuspiciousDomain(hostname)
  {
    suspicious := AnyPatternMatches(ToLower(hostname), DomainPatterns);
  }

  method AnyPatternMatches(domain: string, patterns: seq<string>) returns (found: bool)
    ensures found <==> exists i :: 0 <= i < |patterns| && PatternMatches(domain, patterns[i])
  {
    var i := 0;
    while i < |patterns|
      invariant 0 <= i <= |patterns|
      invariant forall j :: 0 <= j < i ==> !PatternMatches(domain, patterns[j])
    {
      var pattern := patterns[i];
      if Contains(domain, pattern) || Contains(domain, WithoutFirstHyphen(pattern)) {
        assert PatternMatches(domain, patterns[i]);
        return true;
      }
      i := i + 1;
    }
    return false;
  }

  /**
   * A navigation event: its frame and the hostname of its URL (`None` when
   * `new URL` throws, which `checkUrl` catches).
   */
  datatype Navigation = Navigation(frameId: int, hostname: Option<string>)

  /** The navigation is one the worker blocks. */
  predicate Blocks(nav: Navigation)
  {
    nav.frameId == 0 && nav.hostname.Some? && IsSuspiciousDomain(nav.hostname.value)
  }

  /** `onBeforeNavigate` and `checkUrl`: the blocked count after one navigation. */
  function OnBeforeNavigate(blockedCount: nat, nav: Navigation): (n: nat)
    ensures n == blockedCount || n == blockedCount + 1
    ensures n == blockedCount + 1 <==> Blocks(nav)
  {
    if nav.frameId == 0 then
      match nav.hostname
      case None => blockedCount
      case Some(host) => if IsSuspiciousDomain(host) then blockedCount + 1 else blockedCount
    else blockedCount
  }

  /** The blocked count after handling `navs` in order. */
  function AfterNavigations(blockedCount: nat, navs: seq<Navigation>): nat
    decreases |navs|
  {
    if navs == [] then blockedCount
    else AfterNavigations(OnBeforeNavigate(blockedCount, navs[0]), navs[1..])
  }

  /** How many of `navs` the worker blocks. */
  function CountBlocking(navs: seq<Navigation>): (n: nat)
    ensures n <= |navs|
  {
    if navs == [] then 0
    else CountBlocking(navs[..|navs| - 1]) + (if Blocks(navs[|navs| - 1]) then 1 else 0)
  }

  lemma {:induction false} CountBlockingCons(nav: Navigation, navs: seq<Navigation>)
    ensures CountBlocking([nav] + navs) == (if Blocks(nav) then 1 else 0) + CountBlocking(navs)
    decreases |navs|
  {
    if navs != [] {
      var init := navs[..|navs| - 1];
      assert ([nav] + navs)[..|[nav] + navs| - 1] == [nav] + init;
      CountBlockingCons(nav, init);
    }
  }

  /** The count grows by exactly one per blocked navigation, and by nothing else. */
  lemma {:induction false} BlockedCountTally(blockedCount: nat, navs: seq<Navigation>)
    ensures AfterNavigations(blockedCount, navs) == blockedCount + CountBlocking(navs)
    decreases |navs|
  {
    if navs != [] {
      BlockedCountTally(OnBeforeNavigate(blockedCount, navs[0]), navs[1..]);
      CountBlockingCons(navs[0], navs[1..]);
      assert [navs[0]] + navs[1..] == navs;
    }
  }

  /** The content script's keywords. */
  const PageKeywords: seq<string> := [
    "verify your account", "suspended account", "urgent action required",
    "click here immediately", "limited time offer", "act now",
    "confirm your identity", "update payment method"
  ]

  /** `keywords.filter(k => text.includes(k))`, in keyword order. */
  function FoundKeywords(keywords: seq<string>, text: string): (found: seq<string>)
    ensures |found| <= |keywords|
    ensures forall k :: k in found <==> k in keywords && Contains(text, k)
  {
    if keywords == [] then []
    else
      var rest := FoundKeywords(keywords[1..], text);
      if Contains(text, keywords[0]) then [keywords[0]] + rest else rest
  }

  /** Each occurring keyword is reported as often as it is listed, the others not at all. */
  lemma {:induction false} FoundKeywordsCounts(keywords: seq<string>, text: string)
    ensures var found := FoundKeywords(keywords, text);
      forall k :: multiset(found)[k] == if Contains(text, k) then multiset(keywords)[k] else 0
  {
    if keywords != [] {
      FoundKeywordsCounts(keywords[1..], text);
      assert keywords == [keywords[0]] + keywords[1..];
    }
  }

  /** `analyzePage`: the banner is shown when at least two keywords occur in the lower-cased page text. */
  predicate ShowsBanner(pageText: string)
  {
    |FoundKeywords(PageKeywords, ToLower(pageText))| >= 2
  }

  /** Two matching list positions give at least two found keywords. */
  lemma {:induction false} TwoMatchesFound(keywords: seq<string>, text: string, i: nat, j: nat)
    requires i < j < |keywords|
    requires Contains(text, keywords[i]) && Contains(text, keywords[j])
    ensures |FoundKeywords(keywords, text)| >= 2
    decreases i
  {
    var tail := keywords[1..];
    var rest := FoundKeywords(tail, text);
    if i == 0 {
      assert tail[j - 1] in rest;
      assert FoundKeywords(keywords, text) == [keywords[0]] + rest;
    } else {
      TwoMatchesFound(tail, text, i - 1, j - 1);
    }
  }

  /** At least two found keywords come from two matching list positions. */
  lemma {:induction false} FoundTwoMatches(keywords: seq<string>, text: string)
    requires |FoundKeywords(keywords, text)| >= 2
    ensures exists i, j :: 0 <= i < j < |keywords| && Contains(text, keywords[i]) && Contains(text, keywords[j])
  {
    var tail := keywords[1..];
    var rest := FoundKeywords(tail, text);
    if Contains(text, keywords[0]) {
      assert rest[0] in rest;
      var j :| 0 <= j < |tail| && tail[j] == rest[0];
      assert Contains(text, keywords[0]) && Contains(text, keywords[j + 1]);
    } else {
      FoundTwoMatches(tail, text);
      var i, j :| 0 <= i < j < |tail| && Contains(text, tail[i]) && Contains(text, tail[j]);
      assert Contains(text, keywords[i + 1]) && Contains(text, keywords[j + 1]);
    }
  }

  /** At least two listed keywords are found exactly when two different positions of the list match. */
  lemma TwoFound(keywords: seq<string>, text: string)
    ensures |FoundKeywords(keywords, text)| >= 2 <==>
      exists i, j :: 0 <= i < j < |keywords| && Contains(text, keywords[i]) && Contains(text, keywords[j])
  {
    if |FoundKeywords(keywords, text)| >= 2 {
      FoundTwoMatches(keywords, text);
    }
    if exists i, j :: 0 <= i < j < |keywords| && Contains(text, keywords[i]) && Contains(text, keywords[j]) {
      var i, j :| 0 <= i < j < |keywords| && Contains(text, keywords[i]) && Contains(text, keywords[j]);
      TwoMatchesFound(keywords, text, i, j);
    }
  }

  /** The listed keywords are pairwise different. */
  lemma PageKeywordsDistinct()
    ensures forall i, j :: 0 <= i < j < |PageKeywords| ==> PageKeywords[i] != PageKeywords[j]
  {
  }

  /** The banner shows exactly when at least two different listed keywords occur, ignoring ASCII case. */
  lemma BannerIffTwoKeywords(pageText: string)
    ensures ShowsBanner(pageText) <==>
      exists k1, k2 :: k1 in PageKeywords && k2 in PageKeywords && k1 != k2
        && Contains(ToLower(pageText), k1) && Contains(ToLower(pageText), k2)
  {
    var text := ToLower(pageText);
    TwoFound(PageKeywords, text);
    PageKeywordsDistinct();
    if exists k1, k2 :: k1 in PageKeywords && k2 in PageKeywords && k1 != k2
        && Contains(text, k1) && Contains(text, k2) {
      var k1, k2 :| k1 in PageKeywords && k2 in PageKeywords && k1 != k2
        && Contains(text, k1) && Contains(text, k2);
      var i :| 0 <= i < |PageKeywords| && PageKeywords[i] == k1;
      var j :| 0 <= j < |PageKeywords| && PageKeywords[j] == k2;
      if i < j {
        assert Contains(text, PageKeywords[i]) && Contains(text, PageKeywords[j]);
      } else {
        assert Contains(text, PageKeywords[j]) && Contains(text, PageKeywords[i]);
      }
    }
  }
}

=== FILE: randomness.dfy ===
/**
 * `Math.random()` is an input to the model: each call becomes a parameter
 * drawn from the half-open unit interval, and the product `u * n` the source
 * floors is taken in exact real arithmetic, not in IEEE-754 doubles.
 */
module Randomness {

  /** A value `Math.random()` can return: 0 <= u < 1. */
  type UnitInterval = u: real | 0.0 <= u < 1.0

  /** `Math.floor(u * span) + base`: one of the `span` integers from `base` on. */
  function Draw(u: UnitInterval, span: nat, base: int): (r: int)
    requires span > 0
    ensures base <= r < base + span
    ensures r == base <==> u < 1.0 / span as real
  {
    (u * span as real).Floor + base
  }
}

=== FILE: real_time_detection.dfy ===
/**
 * The real-time detection service: a monitoring flag with its interval
 * handle, a most-recent-first alert log, a list of subscriber callbacks and
 * statistics derived from the log.
 *
 * Callbacks are identified by value (JavaScript compares them by reference);
 * the fraud-detection analysis, alert ids, timestamps, `Math.random()` and the
 * timer handle are inputs of the transitions.
 */
module RealTimeDetection {
  import opened Wrappers
  import Seqs
  import Randomness

  datatype UserAction = Allowed | Blocked | Reported

  datatype Alert = Alert(
    id: string,
    timestamp: int,
    url: string,
    riskScore: int,
    threatType: string,
    blocked: bool,
    userAction: Option<UserAction>)

  /** What the fraud-detection analysis reports about a URL. */
  datatype Analysis = Analysis(riskScore: int, threatType: string)

  /** Identity of a subscribed callback. */
  type Subscriber = nat

  /** Identity of a running `setInterval` timer. */
  type TimerHandle = nat

  datatype Service = Service(
    alerts: seq<Alert>,
    subscribers: seq<Subscriber>,
    monitoring: bool,
    interval: Option<TimerHandle>)

  /** One callback invocation made while notifying subscribers. */
  datatype Delivery = Delivery(subscriber: Subscriber, alert: Alert)

  /** A transition's new state and the callback invocations it made, in order. */
  datatype Step = Step(service: Service, delivered: seq<Delivery>)

  /** The result of a manual analysis: new state, invocations, and the alert returned. */
  datatype Analyzed = Analyzed(service: Service, delivered: seq<Delivery>, alert: Alert)

  /** The simulated path records an analysis only above this score. */
  const AlertThreshold := 60
  /** An alert is marked blocked above this score. */
  const BlockThreshold := 70
  /** The simulated path keeps at most this many alerts. */
  const MaxAlerts := 50
  /** `getRecentAlerts` without an argument. */
  const DefaultRecentLimit := 10

  /** The hosts the monitoring tick picks from. */
  const SuspiciousUrls: seq<string> := [
    "paypal-security-update.net",
    "amazon-prime-renewal.org",
    "microsoft-account-verify.com",
    "apple-id-locked.net",
    "google-security-alert.org",
    "facebook-account-suspended.com",
    "netflix-payment-failed.net",
    "crypto-wallet-recovery.org"
  ]

  /** A freshly constructed service. */
  function Initial(): Service
  {
    Service([], [], false, None)
  }

  /** The state invariant every reachable service keeps: the flag is set exactly while an interval is held. */
  ghost predicate Valid(s: Service)
  {
    s.monitoring <==> s.interval.Some?
  }

  /**
   * Every logged alert is as the service built it: blocked exactly above the
   * block threshold, no user action recorded. Code holding a reference to a
   * logged alert can break this.
   */
  ghost predicate AlertsAsBuilt(s: Service)
  {
    forall i :: 0 <= i < |s.alerts| ==>
      (s.alerts[i].blocked <==> s.alerts[i].riskScore > BlockThreshold)
      && s.alerts[i].userAction.None?
  }

  /** Only the flag and interval handle of `t` may differ from `s`. */
  predicate SameLogAndSubscribers(s: Service, t: Service)
  {
    t.alerts == s.alerts && t.subscribers == s.subscribers
  }

  /** `startMonitoring`: a no-op while monitoring, otherwise sets the flag and starts the tick. */
  function StartMonitoring(s: Service, handle: TimerHandle): (t: Service)
    ensures s.monitoring ==> t == s
    ensures !s.monitoring ==> t.monitoring && t.interval == Some(handle)
    ensures SameLogAndSubscribers(s, t)
  {
    if s.monitoring then s
    else s.(monitoring := true, interval := Some(handle))
  }

  /** `stopMonitoring`: whatever the prior state, the flag is cleared and no interval is held. */
  function StopMonitoring(s: Service): (t: Service)
    ensures !t.monitoring && t.interval == None
    ensures SameLogAndSubscribers(s, t)
  {
    var t := s.(monitoring := false);
    if t.interval.Some? then t.(interval := None) else t
  }

  /** `subscribe`: the callback is appended, even if it is already present. */
  function Subscribe(s: Service, callback: Subscriber): (t: Service)
    ensures t.subscribers == s.subscribers + [callback]
    ensures t.alerts == s.alerts && t.monitoring == s.monitoring && t.interval == s.interval
  {
    s.(subscribers := s.subscribers + [callback])
  }

  /** The function `subscribe` returns: removes the first occurrence of the callback, if any. */
  function Unsubscribe(s: Service, callback: Subscriber): (t: Service)
    ensures callback !in s.subscribers ==> t == s
    ensures callback in s.subscribers ==>
      exists i :: 0 <= i < |s.subscribers| && s.subscribers[i] == callback
        && callback !in s.subscribers[..i]
        && t.subscribers == s.subscribers[..i] + s.subscribers[i + 1..]
    ensures multiset(t.subscribers) == multiset(s.subscribers) - multiset{callback}
    ensures t.alerts == s.alerts && t.monitoring == s.monitoring && t.interval == s.interval
  {
    var index := Seqs.IndexOf(s.subscribers, callback);
    if index > -1 then s.(subscribers := Seqs.RemoveFirst(s.subscribers, callback)) else s
  }

  /** `notifySubscribers`: every subscriber, in order, receives the alert (twice if listed twice). */
  function Notify(subscribers: seq<Subscriber>, alert: Alert): (d: seq<Delivery>)
    ensures |d| == |subscribers|
    ensures forall i :: 0 <= i < |d| ==> d[i].subscriber == subscribers[i] && d[i].alert == alert
  {
    if subscribers == [] then []
    else [Delivery(subscribers[0], alert)] + Notify(subscribers[1..], alert)
  }

  /** Keeps the first `MaxAlerts` entries. */
  function Capped(alerts: seq<Alert>): (r: seq<Alert>)
  {
    if |alerts| > MaxAlerts then alerts[..MaxAlerts] else alerts
  }

  /** The alert the service builds from an analysis. */
  function MakeAlert(id: string, timestamp: int, url: string, a: Analysis): (alert: Alert)
    ensures alert.blocked <==> a.riskScore > BlockThreshold
    ensures alert.url == url && alert.riskScore == a.riskScore && alert.threatType == a.threatType
    ensures alert.userAction.None?
  {
    Alert(id, timestamp, url, a.riskScore, a.threatType, a.riskScore > BlockThreshold, None)
  }

  /**
   * One monitoring tick (`simulateRealTimeDetection`): picks a host with the
   * draw `pick`, and when the analysis succeeds with a score above the alert
   * threshold, puts a new alert first, keeps at most `MaxAlerts`, and notifies
   * every subscriber. A failed analysis is swallowed.
   */
  function SimulateDetection(s: Service, pick: Randomness.UnitInterval,
                             analysis: Result<Analysis>, id: string, timestamp: int): (r: Step)
    ensures r.service.subscribers == s.subscribers
    ensures r.service.monitoring == s.monitoring && r.service.interval == s.interval
    ensures !(analysis.Success? && analysis.value.riskScore > AlertThreshold) ==> r == Step(s, [])
    ensures analysis.Success? && analysis.value.riskScore > AlertThreshold ==>
      var alerts := r.service.alerts;
      && |alerts| == (if |s.alerts| < MaxAlerts then |s.alerts| + 1 else MaxAlerts)
      && alerts[0] == MakeAlert(id, timestamp, SuspiciousUrls[Randomness.Draw(pick, |SuspiciousUrls|, 0)], analysis.value)
      && alerts[0].url in SuspiciousUrls
      && alerts[0].riskScore == analysis.value.riskScore
      && alerts[0].threatType == analysis.value.threatType
      && (alerts[0].blocked <==> analysis.value.riskScore > BlockThreshold)
      && alerts[1..] == s.alerts[..|alerts| - 1]
      && r.delivered == Notify(s.subscribers, alerts[0])
  {
    var url := SuspiciousUrls[Randomness.Draw(pick, |SuspiciousUrls|, 0)];
    match analysis
    case Failure(_) => Step(s, [])
    case Success(a) =>
      if a.riskScore > AlertThreshold then
        var alert := MakeAlert(id, timestamp, url, a);
        var alerts := Capped([alert] + s.alerts);
        assert alerts[1..] == s.alerts[..|alerts| - 1];
        Step(s.(alerts := alerts), Notify(s.subscribers, alert))
      else Step(s, [])
  }

  /** The interval callback: a tick happens only while an interval is held. */
  function Tick(s: Service, pick: Randomness.UnitInterval,
                analysis: Result<Analysis>, id: string, timestamp: int): (r: Step)
    ensures s.interval.None? ==> r == Step(s, [])
    ensures s.interval.Some? ==> r == SimulateDetection(s, pick, analysis, id, timestamp)
  {
    if s.interval.Some? then SimulateDetection(s, pick, analysis, id, timestamp) else Step(s, [])
  }

  /**
   * `analyzeUrlInRealTime`: a successful analysis always puts exactly one new
   * alert first, with no cap, notifies every subscriber and returns the alert;
   * a failed analysis is rethrown and the state is untouched.
   */
  function AnalyzeUrl(s: Service, url: string, analysis: Result<Analysis>,
                      id: string, timestamp: int): (r: Result<Analyzed>)
    ensures analysis.Failure? ==> r == Failure(analysis.error)
    ensures analysis.Success? ==>
      && r.Success?
      && r.value.service.alerts == [r.value.alert] + s.alerts
      && |r.value.service.alerts| == |s.alerts| + 1
      && r.value.alert == MakeAlert(id, timestamp, url, analysis.value)
      && r.value.alert.url == url
      && r.value.alert.riskScore == analysis.value.riskScore
      && (r.value.alert.blocked <==> analysis.value.riskScore > BlockThreshold)
      && r.value.delivered == Notify(s.subscribers, r.value.alert)
      && r.value.service.subscribers == s.subscribers
      && r.value.service.monitoring == s.monitoring
      && r.value.service.interval == s.interval
  {
    match analysis
    case Failure(e) => Failure(e)
    case Success(a) =>
      var alert := MakeAlert(id, timestamp, url, a);
      Success(Analyzed(s.(alerts := [alert] + s.alerts), Notify(s.subscribers, alert), alert))
  }

  /**
   * `getRecentAlerts(limit)`, i.e. `alerts.slice(0, limit)`: a non-negative
   * limit takes the first min(limit, |alerts|) alerts, a negative one drops
   * that many from the end; `None` is the default limit.
   */
  function GetRecentAlerts(s: Service, limit: Option<int>): (r: seq<Alert>)
    ensures Seqs.IsPrefixOf(r, s.alerts)
    ensures limit.None? ==> |r| == (if |s.alerts| < DefaultRecentLimit then |s.alerts| else DefaultRecentLimit)
    ensures limit.Some? && limit.value >= 0 ==>
      |r| == (if |s.alerts| < limit.value then |s.alerts| else limit.value)
    ensures limit.Some? && limit.value < 0 ==>
      |r| == (if |s.alerts| + limit.value < 0 then 0 else |s.alerts| + limit.value)
  {
    var n := match limit case None => DefaultRecentLimit case Some(k) => k;
    var end := if n < 0 then (if |s.alerts| + n < 0 then 0 else |s.alerts| + n)
               else if n < |s.alerts| then n else |s.alerts|;
    s.alerts[..end]
  }

  datatype ThreatStats = ThreatStats(totalDetected: nat, blocked: nat, allowed: nat, reported: nat)

  /** `alerts.filter(a => a.blocked).length` */
  function CountBlocked(alerts: seq<Alert>): (n: nat)
    ensures n <= |alerts|
    ensures n == 0 <==> forall i :: 0 <= i < |alerts| ==> !alerts[i].blocked
  {
    if alerts == [] then 0
    else (if alerts[0].blocked then 1 else 0) + CountBlocked(alerts[1..])
  }

  /** `alerts.filter(a => a.userAction === action).length` */
  function CountAction(alerts: seq<Alert>, action: UserAction): (n: nat)
    ensures n <= |alerts|
    ensures n == 0 <==> forall i :: 0 <= i < |alerts| ==> alerts[i].userAction != Some(action)
  {
    if alerts == [] then 0
    else (if alerts[0].userAction == Some(action) then 1 else 0) + CountAction(alerts[1..], action)
  }

  /** An alert carries at most one user action, so the two counts never overlap. */
  lemma {:induction false} AllowedAndReportedDisjoint(alerts: seq<Alert>)
    ensures CountAction(alerts, Allowed) + CountAction(alerts, Reported) <= |alerts|
  {
    if alerts != [] {
      AllowedAndReportedDisjoint(alerts[1..]);
    }
  }

  /** `getThreatStats` */
  function GetThreatStats(s: Service): (st: ThreatStats)
    ensures st.totalDetected == |s.alerts|
    ensures st.blocked <= st.totalDetected
    ensures st.allowed + st.reported <= st.totalDetected
    ensures st.blocked == 0 <==> forall i :: 0 <= i < |s.alerts| ==> !s.alerts[i].blocked
  {
    AllowedAndReportedDisjoint(s.alerts);
    ThreatStats(|s.alerts|, CountBlocked(s.alerts),
                CountAction(s.alerts, Allowed), CountAction(s.alerts, Reported))
  }

  /** Unsubscribing right after subscribing a new callback restores the subscriber list. */
  lemma SubscribeThenUnsubscribe(s: Service, callback: Subscriber)
    requires callback !in s.subscribers
    ensures Unsubscribe(Subscribe(s, callback), callback) == s
  {
  }

  /** A manual analysis adds one to the total, and one to the blocked count exactly when it blocks. */
  lemma AnalyzeUrlStats(s: Service, url: string, a: Analysis, id: string, timestamp: int)
    ensures var r := AnalyzeUrl(s, url, Success(a), id, timestamp);
      && GetThreatStats(r.value.service).totalDetected == GetThreatStats(s).totalDetected + 1
      && GetThreatStats(r.value.service).blocked
         == GetThreatStats(s).blocked + (if a.riskScore > BlockThreshold then 1 else 0)
  {
  }

  /** A write to a field of a logged alert through a shared reference. */
  datatype AlertEdit = SetUserAction(action: Option<UserAction>) | SetBlocked(blocked: bool)

  /**
   * The alerts the service hands out (the one `analyzeUrlInRealTime` returns,
   * those in `getRecentAlerts`' slice, the one each subscriber receives) are
   * the logged objects themselves, so their holders can rewrite them: the
   * edit lands on the logged alert at `index`, if it is still logged.
   */
  function EditAlert(s: Service, index: nat, edit: AlertEdit): (t: Service)
    ensures |t.alerts| == |s.alerts|
    ensures forall i :: 0 <= i < |s.alerts| && i != index ==> t.alerts[i] == s.alerts[i]
    ensures index < |s.alerts| ==>
      match edit
      case SetUserAction(a) => t.alerts[index] == s.alerts[index].(userAction := a)
      case SetBlocked(b) => t.alerts[index] == s.alerts[index].(blocked := b)
    ensures index >= |s.alerts| ==> t == s
    ensures t.subscribers == s.subscribers && t.monitoring == s.monitoring && t.interval == s.interval
  {
    if index < |s.alerts| then
      var old_ := s.alerts[index];
      var new_ := match edit
        case SetUserAction(a) => old_.(userAction := a)
        case SetBlocked(b) => old_.(blocked := b);
      s.(alerts := s.alerts[index := new_])
    else s
  }

  /** Rewriting one alert's user action moves it from its old count to its new one. */
  lemma {:induction false} SetUserActionCounts(alerts: seq<Alert>, index: nat, a: Option<UserAction>, x: UserAction)
    requires index < |alerts|
    ensures CountAction(alerts[index := alerts[index].(userAction := a)], x)
            == CountAction(alerts, x)
               - (if alerts[index].userAction == Some(x) then 1 else 0)
               + (if a == Some(x) then 1 else 0)
  {
    var edited := alerts[index := alerts[index].(userAction := a)];
    if index > 0 {
      SetUserActionCounts(alerts[1..], index - 1, a, x);
      assert edited[1..] == alerts[1..][index - 1 := alerts[index].(userAction := a)];
    } else {
      assert edited[1..] == alerts[1..];
    }
  }

  /** Rewriting one alert's blocked flag moves it into or out of the blocked count. */
  lemma {:induction false} SetBlockedCounts(alerts: seq<Alert>, index: nat, b: bool)
    requires index < |alerts|
    ensures CountBlocked(alerts[index := alerts[index].(blocked := b)])
            == CountBlocked(alerts) - (if alerts[index].blocked then 1 else 0) + (if b then 1 else 0)
  {
    var edited := alerts[index := alerts[index].(blocked := b)];
    if index > 0 {
      SetBlockedCounts(alerts[1..], index - 1, b);
      assert edited[1..] == alerts[1..][index - 1 := alerts[index].(blocked := b)];
    } else {
      assert edited[1..] == alerts[1..];
    }
  }

  /** Everything that can happen to the service. */
  datatype Event =
    | Start(handle: TimerHandle)
    | Stop
    | Subscribed(callback: Subscriber)
    | Unsubscribed(callback: Subscriber)
    | Ticked(pick: Randomness.UnitInterval, analysis: Result<Analysis>, id: string, timestamp: int)
    | AnalyzeRequested(url: string, analysis: Result<Analysis>, id: string, timestamp: int)
    | AlertEdited(index: nat, edit: AlertEdit)

  /** The state after one event. */
  function Apply(s: Service, e: Event): (t: Service)
  {
    match e
    case Start(h) => StartMonitoring(s, h)
    case Stop => StopMonitoring(s)
    case Subscribed(c) => Subscribe(s, c)
    case Unsubscribed(c) => Unsubscribe(s, c)
    case Ticked(pick, analysis, id, ts) => Tick(s, pick, analysis, id, ts).service
    case AnalyzeRequested(url, analysis, id, ts) =>
      (match AnalyzeUrl(s, url, analysis, id, ts)
       case Success(r) => r.service
       case Failure(_) => s)
    case AlertEdited(i, edit) => EditAlert(s, i, edit)
  }

  /** The state after a sequence of events, applied first to last. */
  function Run(s: Service, events: seq<Event>): (t: Service)
    decreases |events|
  {
    if events == [] then s else Run(Apply(s, events[0]), events[1..])
  }

  /** Every event keeps the state invariant. */
  lemma ApplyPreservesValid(s: Service, e: Event)
    requires Valid(s)
    ensures Valid(Apply(s, e))
  {
  }

  /** Every state reachable from a fresh service satisfies the invariant. */
  lemma {:induction false} RunPreservesValid(s: Service, events: seq<Event>)
    requires Valid(s)
    ensures Valid(Run(s, events))
    decreases |events|
  {
    if events != [] {
      ApplyPreservesValid(s, events[0]);
      RunPreservesValid(Apply(s, events[0]), events[1..]);
    }
  }

  /** The service's own methods only ever log alerts as they built them. */
  lemma OwnEventsKeepAlertsAsBuilt(s: Service, e: Event)
    requires AlertsAsBuilt(s)
    requires !e.AlertEdited?
    ensures AlertsAsBuilt(Apply(s, e))
  {
  }

  /** Without writes through alert references, every alert stays as the service built it. */
  lemma {:induction false} RunKeepsAlertsAsBuilt(s: Service, events: seq<Event>)
    requires AlertsAsBuilt(s)
    requires forall k :: 0 <= k < |events| ==> !events[k].AlertEdited?
    ensures AlertsAsBuilt(Run(s, events))
    decreases |events|
  {
    if events != [] {
      OwnEventsKeepAlertsAsBuilt(s, events[0]);
      RunKeepsAlertsAsBuilt(Apply(s, events[0]), events[1..]);
    }
  }

  /**
   * In every state reachable from a fresh service the flag matches the
   * interval handle and the statistics keep their bounds. The service itself
   * never records a user action: unless a holder of an alert reference
   * rewrites an alert, the allowed and reported counts are zero and an alert
   * is blocked exactly when its score is above the block threshold.
   */
  lemma {:induction false} ReachableStats(events: seq<Event>)
    ensures var s := Run(Initial(), events);
      && (s.monitoring <==> s.interval.Some?)
      && GetThreatStats(s).blocked <= GetThreatStats(s).totalDetected
      && GetThreatStats(s).allowed + GetThreatStats(s).reported <= GetThreatStats(s).totalDetected
    ensures (forall k :: 0 <= k < |events| ==> !events[k].AlertEdited?) ==>
      var s := Run(Initial(), events);
      && GetThreatStats(s).allowed == 0
      && GetThreatStats(s).reported == 0
      && forall i :: 0 <= i < |s.alerts| ==> (s.alerts[i].blocked <==> s.alerts[i].riskScore > BlockThreshold)
  {
    RunPreservesValid(Initial(), events);
    if forall k :: 0 <= k < |events| ==> !events[k].AlertEdited? {
      RunKeepsAlertsAsBuilt(Initial(), events);
    }
  }
}

=== FILE: scanner.dfy ===
/**
 * The content scanner's simulated analysis: keyword matching on the
 * lower-cased target, a risk score drawn from a range that depends on the
 * match, threshold classification, detection reasons and the four
 * analysis-detail scores. Each `Math.random()` call is an input.
 */
module Scanner {
  import opened Wrappers
  import opened AsciiText
  import opened Randomness

  /** Brand names and urgency words that make a target suspicious. */
  const SuspiciousPatterns: seq<string> := [
    "paypal", "amazon", "microsoft", "apple", "google", "bank", "secure", "login",
    "update", "verify", "suspended", "urgent", "limited", "confirm"
  ]

  const ReasonKeywords := "Domain contains suspicious keywords"
  const ReasonCertificate := "SSL certificate irregularities detected"
  const ReasonSimilarity := "Content similarity to known phishing sites"
  const ReasonMalware := "Active malware signatures found"

  datatype Classification = HighRisk | MediumRisk | LowRisk
  {
    function Label(): string
    {
      match this
      case HighRisk => "High Risk"
      case MediumRisk => "Medium Risk"
      case LowRisk => "Low Risk"
    }
  }

  datatype ThreatType = Phishing | Suspicious | Clean
  {
    function Label(): string
    {
      match this
      case Phishing => "Phishing"
      case Suspicious => "Suspicious"
      case Clean => "Clean"
    }
  }

  /**
   * The page stores the classification and threat type as these strings;
   * different values have different strings, so the enumerations lose nothing.
   */
  lemma LabelsIdentify()
    ensures forall c: Classification, d: Classification :: c.Label() == d.Label() ==> c == d
    ensures forall t: ThreatType, u: ThreatType :: t.Label() == u.Label() ==> t == u
  {
  }

  datatype AnalysisDetails = AnalysisDetails(
    nlpConfidence: int,
    visualSimilarity: int,
    domainReputation: int,
    behavioralScore: int)

  datatype ScanResult = ScanResult(
    target: string,
    riskScore: int,
    classification: Classification,
    threatType: ThreatType,
    detectionReasons: seq<string>,
    timestamp: string,
    analysisDetails: AnalysisDetails)

  /** The five `Math.random()` values one scan consumes, in call order. */
  datatype ScanDraws = ScanDraws(
    risk: UnitInterval,
    nlp: UnitInterval,
    visual: UnitInterval,
    domain: UnitInterval,
    behavioral: UnitInterval)

  /** The target, lower-cased, contains at least one of the patterns. */
  predicate IsSuspicious(target: string)
  {
    exists i :: 0 <= i < |SuspiciousPatterns| && Contains(ToLower(target), SuspiciousPatterns[i])
  }

  /** `suspiciousPatterns.some(...)` as a short-circuiting scan over the patterns. */
  method CheckSuspicious(target: string) returns (suspicious: bool)
    ensures suspicious <==> IsSuspicious(target)
  {
    var lower := ToLower(target);
    var i := 0;
    while i < |SuspiciousPatterns|
      invariant 0 <= i <= |SuspiciousPatterns|
      invariant forall j :: 0 <= j < i ==> !Contains(lower, SuspiciousPatterns[j])
    {
      if Contains(lower, SuspiciousPatterns[i]) {
        return true;
      }
      i := i + 1;
    }
    return false;
  }

  /** 70..99 for a suspicious target, 10..49 otherwise. */
  function RiskScore(suspicious: bool, u: UnitInterval): (score: int)
    ensures suspicious ==> 70 <= score <= 99
    ensures !suspicious ==> 10 <= score <= 49
    ensures suspicious ==> (score == 70 <==> u < 1.0 / 30.0)
  {
    if suspicious then Draw(u, 30, 70) else Draw(u, 40, 10)
  }

  function ClassificationOf(score: int): Classification
  {
    if score > 70 then HighRisk else if score > 40 then MediumRisk else LowRisk
  }

  function ThreatTypeOf(score: int): ThreatType
  {
    if score > 70 then Phishing else if score > 40 then Suspicious else Clean
  }

  /** Classification and threat type come from the same thresholds, so they always pair up. */
  lemma ClassificationPairing(score: int)
    ensures ClassificationOf(score) == HighRisk <==> ThreatTypeOf(score) == Phishing
    ensures ClassificationOf(score) == MediumRisk <==> ThreatTypeOf(score) == Suspicious
    ensures ClassificationOf(score) == LowRisk <==> ThreatTypeOf(score) == Clean
  {
  }

  function DetectionReasons(suspicious: bool, score: int): (reasons: seq<string>)
  {
    if !suspicious then []
    else [ReasonKeywords, ReasonCertificate, ReasonSimilarity]
         + (if score > 85 then [ReasonMalware] else [])
  }

  /** `simulateScan` after its delay, as a function of the target and the draws. */
  function SimulateScan(target: string, draws: ScanDraws, timestamp: string): (r: ScanResult)
    ensures r.target == target && r.timestamp == timestamp
    ensures IsSuspicious(target) ==> 70 <= r.riskScore <= 99
    ensures !IsSuspicious(target) ==> 10 <= r.riskScore <= 49
    ensures r.classification == HighRisk <==> r.riskScore > 70
    ensures r.classification == MediumRisk <==> 40 < r.riskScore <= 70
    ensures r.classification == LowRisk <==> r.riskScore <= 40
    ensures (r.classification, r.threatType) in
              {(HighRisk, Phishing), (MediumRisk, Suspicious), (LowRisk, Clean)}
    ensures !IsSuspicious(target) ==> r.detectionReasons == []
    ensures IsSuspicious(target) ==>
      |r.detectionReasons| == (if r.riskScore > 85 then 4 else 3)
      && r.detectionReasons[..3] == [ReasonKeywords, ReasonCertificate, ReasonSimilarity]
      && (r.riskScore > 85 ==> r.detectionReasons[3] == ReasonMalware)
    ensures 80 <= r.analysisDetails.nlpConfidence <= 99
    ensures 60 <= r.analysisDetails.visualSimilarity <= 89
    ensures 75 <= r.analysisDetails.domainReputation <= 99
    ensures 65 <= r.analysisDetails.behavioralScore <= 99
  {
    var suspicious := IsSuspicious(target);
    var score := RiskScore(suspicious, draws.risk);
    ScanResult(
      target, score, ClassificationOf(score), ThreatTypeOf(score),
      DetectionReasons(suspicious, score), timestamp,
      AnalysisDetails(
        Draw(draws.nlp, 20, 80),
        Draw(draws.visual, 30, 60),
        Draw(draws.domain, 25, 75),
        Draw(draws.behavioral, 35, 65)))
  }

  /** A target without any pattern is never classified High Risk. */
  lemma NonSuspiciousNeverHighRisk(target: string, draws: ScanDraws, timestamp: string)
    requires !IsSuspicious(target)
    ensures SimulateScan(target, draws, timestamp).classification != HighRisk
    ensures SimulateScan(target, draws, timestamp).threatType != Phishing
  {
  }

  /**
   * A suspicious target is High Risk except for the lowest score of its range,
   * 70, which the strict threshold puts in Medium Risk; that happens exactly
   * when the draw falls below 1/30.
   */
  lemma SuspiciousHighRiskUnlessSeventy(target: string, draws: ScanDraws, timestamp: string)
    requires IsSuspicious(target)
    ensures var r := SimulateScan(target, draws, timestamp);
      && (r.classification == HighRisk <==> r.riskScore != 70)
      && (r.classification == MediumRisk <==> draws.risk < 1.0 / 30.0)
      && r.classification != LowRisk
  {
  }

  /**
   * `handleScan`: the form starts a scan only when the trimmed input is
   * non-empty, and then scans the input as typed (untrimmed).
   */
  function HandleScan(input: string, draws: ScanDraws, timestamp: string): (r: Option<ScanResult>)
    ensures r.Some? <==> exists i :: 0 <= i < |input| && !IsWhitespace(input[i])
    ensures r.Some? ==> r.value == SimulateScan(input, draws, timestamp)
  {
    TrimCutsOnlyWhitespace(input);
    if Trim(input) != "" then Some(SimulateScan(input, draws, timestamp)) else None
  }
}

=== FILE: seqs.dfy ===
/**
 * Sequence helpers with JavaScript array/string semantics: `indexOf`
 * answering -1 for a missing element, and removal of the first occurrence
 * (`splice(indexOf(x), 1)` on arrays, `replace(c, '')` on strings).
 */
module Seqs {

  /** JavaScript `indexOf`: the first index holding `x`, or -1. */
  function IndexOf<T(==)>(s: seq<T>, x: T): (r: int)
    ensures r == -1 <==> x !in s
    ensures 0 <= r ==> r < |s| && s[r] == x && x !in s[..r]
    ensures -1 <= r
  {
    if |s| == 0 then -1
    else if s[0] == x then 0
    else
      var k := IndexOf(s[1..], x);
      if k == -1 then -1
      else
        assert s[..k + 1] == [s[0]] + s[1..][..k];
        k + 1
  }

  /** Removes the first occurrence of `x`, if any; the rest keeps its order. */
  function RemoveFirst<T(==)>(s: seq<T>, x: T): (r: seq<T>)
    ensures x !in s ==> r == s
    ensures x in s ==>
      exists i :: 0 <= i < |s| && s[i] == x && x !in s[..i] && r == s[..i] + s[i + 1..]
    ensures x in s ==> |r| == |s| - 1 && multiset(r) == multiset(s) - multiset{x}
  {
    var i := IndexOf(s, x);
    if i > -1 then
      assert s == s[..i] + [s[i]] + s[i + 1..];
      s[..i] + s[i + 1..]
    else s
  }

  /** `xs` occurs in `ys` in order, possibly with gaps. */
  predicate IsSubsequence<T(==)>(xs: seq<T>, ys: seq<T>)
    decreases |ys|
  {
    if ys == [] then xs == []
    else (xs != [] && xs[0] == ys[0] && IsSubsequence(xs[1..], ys[1..]))
         || IsSubsequence(xs, ys[1..])
  }

  /** `p` is an initial segment of `s`. */
  predicate IsPrefixOf<T(==)>(p: seq<T>, s: seq<T>)
  {
    |p| <= |s| && s[..|p|] == p
  }
}

=== FILE: text.dfy ===
/**
 * String primitives the components rely on: `toLowerCase` restricted to
 * ASCII letters, `includes` (substring search) and `trim` with the
 * ECMAScript white-space and line-terminator set.
 */
module AsciiText {
  import Seqs

  predicate IsUpper(c: char) { 'A' <= c <= 'Z' }

  /** ASCII lower-casing of one character; every other character is kept. */
  function ToLowerChar(c: char): (d: char)
    ensures !IsUpper(d)
    ensures !IsUpper(c) ==> d == c
    ensures IsUpper(c) ==> 'a' <= d <= 'z' && d as int - c as int == 'a' as int - 'A' as int
  {
    if IsUpper(c) then (c as int - 'A' as int + 'a' as int) as char else c
  }

  /** `s.toLowerCase()` on ASCII letters. */
  function ToLower(s: string): (r: string)
    ensures |r| == |s|
    ensures forall i :: 0 <= i < |s| ==> r[i] == ToLowerChar(s[i])
  {
    seq(|s|, i requires 0 <= i < |s| => ToLowerChar(s[i]))
  }

  /** Two strings that differ only in letter case. */
  predicate SameIgnoringCase(a: string, b: string) { ToLower(a) == ToLower(b) }

  /** JavaScript `s.includes(p)`: `p` occurs in `s` at some position. */
  predicate Contains(s: string, p: string)
  {
    exists i :: 0 <= i <= |s| && Seqs.IsPrefixOf(p, s[i..])
  }

  /** Every string includes the empty string. */
  lemma ContainsEmpty(s: string)
    ensures Contains(s, "")
  {
    assert Seqs.IsPrefixOf("", s[0..]);
  }

  /** ECMAScript WhiteSpace and LineTerminator code points, which `trim` strips. */
  predicate IsWhitespace(c: char)
  {
    || c == '\t' || c == '\n' || c == '\U{000B}' || c == '\U{000C}' || c == '\r'
    || c == ' ' || c == '\U{00A0}' || c == '\U{1680}'
    || ('\U{2000}' <= c <= '\U{200A}')
    || c == '\U{2028}' || c == '\U{2029}' || c == '\U{202F}' || c == '\U{205F}'
    || c == '\U{3000}' || c == '\U{FEFF}'
  }

  /** Every character of `s` at an index in [lo, hi) is white space. */
  predicate BlankBetween(s: string, lo: int, hi: int)
  {
    forall k :: lo <= k < hi && 0 <= k < |s| ==> IsWhitespace(s[k])
  }

  /** Every character of `s` is white space (the empty string included). */
  predicate IsBlank(s: string)
  {
    BlankBetween(s, 0, |s|)
  }

  /** The index of the first non-white-space character at or after `k`, or |s|. */
  function SkipLeading(s: string, k: nat): (n: nat)
    requires k <= |s|
    ensures k <= n <= |s|
    ensures BlankBetween(s, k, n)
    ensures n < |s| ==> !IsWhitespace(s[n])
    decreases |s| - k
  {
    if k < |s| && IsWhitespace(s[k]) then SkipLeading(s, k + 1) else k
  }

  /** The end of `s[lo..e]` once trailing white space is dropped. */
  function SkipTrailing(s: string, lo: nat, e: nat): (n: nat)
    requires lo <= e <= |s|
    ensures lo <= n <= e
    ensures BlankBetween(s, n, e)
    ensures n > lo ==> !IsWhitespace(s[n - 1])
    decreases e - lo
  {
    if e > lo && IsWhitespace(s[e - 1]) then SkipTrailing(s, lo, e - 1) else e
  }

  /** JavaScript `s.trim()`: leading and trailing white space removed. */
  function Trim(s: string): (r: string)
  {
    var start := SkipLeading(s, 0);
    s[start..SkipTrailing(s, start, |s|)]
  }

  /**
   * `trim` leaves a contiguous piece of `s` that neither starts nor ends in
   * white space, with only white space cut away on either side, and it is
   * empty exactly when `s` is blank.
   */
  lemma TrimCutsOnlyWhitespace(s: string)
    ensures exists i :: 0 <= i <= |s| - |Trim(s)| && Trim(s) == s[i..i + |Trim(s)|]
                        && BlankBetween(s, 0, i) && BlankBetween(s, i + |Trim(s)|, |s|)
    ensures Trim(s) != [] ==> !IsWhitespace(Trim(s)[0]) && !IsWhitespace(Trim(s)[|Trim(s)| - 1])
    ensures Trim(s) == [] <==> IsBlank(s)
  {
    var a := SkipLeading(s, 0);
    var b := SkipTrailing(s, a, |s|);
    assert Trim(s) == s[a..b];
    assert BlankBetween(s, 0, a) && BlankBetween(s, b, |s|);
    if a == b {
      assert forall k :: 0 <= k < |s| ==> IsWhitespace(s[k]);
    }
  }
}

=== FILE: threat_database.dfy ===
/**
 * The threat database panel: the fixed table of known threats, the search
 * and type filter applied to it, and the colour selectors for risk scores
 * and statuses.
 */
module ThreatDatabase {
  import opened AsciiText
  import Seqs

  datatype Threat = Threat(
    id: string,
    url: string,
    kind: string,
    category: string,
    riskScore: int,
    status: string,
    firstSeen: string,
    lastSeen: string,
    reports: nat,
    description: string)

  const Threats: seq<Threat> := [
    Threat("1", "paypal-secure-login.net", "Phishing", "Website", 95, "Active",
           "2025-01-15", "2025-01-15", 1247,
           "Sophisticated PayPal login page replica with credential harvesting"),
    Threat("2", "amazon-deals-app.apk", "Malicious App", "Mobile App", 88, "Blocked",
           "2025-01-14", "2025-01-15", 892,
           "Fake Amazon shopping app with excessive permissions and data exfiltration"),
    Threat("3", "microsoft-office-update.com", "Scam", "Website", 76, "Monitoring",
           "2025-01-13", "2025-01-15", 634,
           "Fake Microsoft update page distributing potentially unwanted programs"),
    Threat("4", "crypto-wallet-secure.org", "Clone", "Website", 92, "Active",
           "2025-01-12", "2025-01-15", 2156,
           "Cryptocurrency wallet clone designed to steal private keys"),
    Threat("5", "banking-security-app.apk", "Banking Trojan", "Mobile App", 98, "Blocked",
           "2025-01-10", "2025-01-14", 3421,
           "Sophisticated banking trojan targeting multiple financial institutions")
  ]

  /** The filter value that disables the type filter. */
  const AllTypes := "all"

  /** The values the type selector offers. */
  const FilterOptions: seq<string> := ["all", "phishing", "malicious app", "scam", "clone"]

  /** The url or the type contains the search term, ignoring ASCII case; the description is not searched. */
  predicate MatchesSearch(t: Threat, searchTerm: string)
  {
    Contains(ToLower(t.url), ToLower(searchTerm)) || Contains(ToLower(t.kind), ToLower(searchTerm))
  }

  /** The filter is exactly "all" (case matters here), or equals the type ignoring ASCII case. */
  predicate MatchesFilter(t: Threat, filterType: string)
  {
    filterType == AllTypes || ToLower(t.kind) == ToLower(filterType)
  }

  predicate Keep(t: Threat, searchTerm: string, filterType: string)
  {
    MatchesSearch(t, searchTerm) && MatchesFilter(t, filterType)
  }

  /**
   * `filteredThreats`: the threats both conditions keep, in table order and
   * with nothing else.
   */
  function FilterThreats(threats: seq<Threat>, searchTerm: string, filterType: string): (r: seq<Threat>)
    ensures Seqs.IsSubsequence(r, threats)
    ensures forall t :: t in r <==> t in threats && Keep(t, searchTerm, filterType)
    ensures |r| <= |threats|
  {
    if threats == [] then []
    else
      var rest := FilterThreats(threats[1..], searchTerm, filterType);
      if Keep(threats[0], searchTerm, filterType) then
        assert ([threats[0]] + rest)[1..] == rest;
        [threats[0]] + rest
      else rest
  }

  /** Each kept threat appears as often as in the table, each dropped one not at all. */
  lemma {:induction false} FilterThreatsCounts(threats: seq<Threat>, searchTerm: string, filterType: string)
    ensures var r := FilterThreats(threats, searchTerm, filterType);
      forall t :: multiset(r)[t] == if Keep(t, searchTerm, filterType) then multiset(threats)[t] else 0
  {
    if threats != [] {
      FilterThreatsCounts(threats[1..], searchTerm, filterType);
      assert threats == [threats[0]] + threats[1..];
    }
  }

  /** The description plays no part in whether a threat is kept. */
  lemma DescriptionNotSearched(t: Threat, description: string, searchTerm: string, filterType: string)
    ensures Keep(t.(description := description), searchTerm, filterType) == Keep(t, searchTerm, filterType)
  {
  }

  /** An empty search with the "all" filter shows every threat of the table. */
  lemma EmptySearchShowsAll()
    ensures FilterThreats(Threats, "", AllTypes) == Threats
  {
    forall t | t in Threats ensures Keep(t, "", AllTypes) {
      ContainsEmpty(ToLower(t.url));
    }
    KeepAllIsIdentity(Threats, "", AllTypes);
  }

  lemma {:induction false} KeepAllIsIdentity(threats: seq<Threat>, searchTerm: string, filterType: string)
    requires forall t :: t in threats ==> Keep(t, searchTerm, filterType)
    ensures FilterThreats(threats, searchTerm, filterType) == threats
  {
    if threats != [] {
      KeepAllIsIdentity(threats[1..], searchTerm, filterType);
    }
  }

  /** Changing the letter case of the search term never changes the result. */
  lemma {:induction false} SearchIgnoresCase(threats: seq<Threat>, a: string, b: string, filterType: string)
    requires SameIgnoringCase(a, b)
    ensures FilterThreats(threats, a, filterType) == FilterThreats(threats, b, filterType)
  {
    if threats != [] {
      SearchIgnoresCase(threats[1..], a, b, filterType);
    }
  }

  /**
   * Changing the letter case of the filter value never changes the result,
   * provided it does not turn "all" into another spelling or back.
   */
  lemma {:induction false} FilterIgnoresCase(threats: seq<Threat>, searchTerm: string, f: string, g: string)
    requires SameIgnoringCase(f, g)
    requires f == AllTypes <==> g == AllTypes
    ensures FilterThreats(threats, searchTerm, f) == FilterThreats(threats, searchTerm, g)
  {
    if threats != [] {
      FilterIgnoresCase(threats[1..], searchTerm, f, g);
    }
  }

  /**
   * "all" is compared case-sensitively: "ALL" is no type of the table, so it
   * shows nothing where "all" shows everything.
   */
  lemma AllIsCaseSensitive()
    ensures SameIgnoringCase("ALL", AllTypes)
    ensures FilterThreats(Threats, "", "ALL") == []
  {
    var lower := ToLower("ALL");
    assert lower[0] == 'a' && lower[1] == 'l' && lower[2] == 'l';
    assert lower == AllTypes;
    assert |Threats[0].kind| == 8 && |Threats[1].kind| == 13 && |Threats[2].kind| == 4;
    assert |Threats[3].kind| == 5 && |Threats[4].kind| == 14;
    forall t | t in Threats ensures !MatchesFilter(t, "ALL") {
      assert |ToLower(t.kind)| != |"ALL"|;
    }
  }

  /** No selectable type option other than "all" shows the Banking Trojan entry. */
  lemma BankingTrojanOnlyUnderAll(searchTerm: string)
    ensures forall o :: o in FilterOptions && o != AllTypes ==>
      Threats[4] !in FilterThreats(Threats, searchTerm, o)
  {
  }

  const RiskRed := "text-red-600 bg-red-50"
  const RiskOrange := "text-orange-600 bg-orange-50"
  const RiskYellow := "text-yellow-600 bg-yellow-50"

  /** `getRiskColor`: red from 80, orange from 60, yellow below. */
  function RiskColor(score: int): (c: string)
    ensures c == RiskRed <==> score >= 80
    ensures c == RiskOrange <==> 60 <= score < 80
    ensures c == RiskYellow <==> score < 60
  {
    if score >= 80 then RiskRed else if score >= 60 then RiskOrange else RiskYellow
  }

  /** Yellow, orange and red in increasing severity. */
  function Severity(c: string): nat
  {
    if c == RiskRed then 2 else if c == RiskOrange then 1 else 0
  }

  /** A higher score never gets a milder colour. */
  lemma RiskColorMonotone(a: int, b: int)
    requires a <= b
    ensures Severity(RiskColor(a)) <= Severity(RiskColor(b))
  {
  }

  const StatusRed := "bg-red-100 text-red-700 border-red-200"
  const StatusGray := "bg-gray-100 text-gray-700 border-gray-200"
  const StatusYellow := "bg-yellow-100 text-yellow-700 border-yellow-200"

  /** `getStatusColor`: Active is red, Monitoring yellow, Blocked and every other status gray. */
  function StatusColor(status: string): (c: string)
    ensures c == StatusRed <==> status == "Active"
    ensures c == StatusYellow <==> status == "Monitoring"
    ensures c == StatusGray <==> status != "Active" && status != "Monitoring"
  {
    match status
    case "Active" => StatusRed
    case "Blocked" => StatusGray
    case "Monitoring" => StatusYellow
    case _ => StatusGray
  }

  /** An unknown status looks exactly like "Blocked". */
  lemma UnknownStatusLooksBlocked(status: string)
    requires status != "Active" && status != "Blocked" && status != "Monitoring"
    ensures StatusColor(status) == StatusColor("Blocked")
  {
  }
}

=== FILE: wrappers.dfy ===
/** Optional values and success-or-error results shared by the model. */
module Wrappers {

  /** A value that may be absent: JavaScript's `undefined`/`null`. */
  datatype Option<+T> = None | Some(value: T)

  /** The outcome of a call that may throw: `Failure` carries the error message. */
  datatype Result<+R> = Success(value: R) | Failure(error: string)
}
